=== FILE: README.md ===
# Shipment lifecycle of the product-shipment backend, in Dafny

This project models the core of a small inventory-and-shipment backend.
Production users register stock *products*. They bundle products into
*shipments* sent to a central admin. The admin marks each shipment received
or rejected, and paid or unpaid.

The model covers the shipment lifecycle in `controllers/shipmentController.js`:

- create;
- edit while pending, with its stock "revert" phase;
- the admin's status/payment transition;
- the read-by-id access check and the sender's own listing.

It also covers the product and user CRUD handlers, and the three Mongoose
schemas with their enums, defaults, required fields and unique email.

Each mutating handler is a pure function from the store and the request
(and, where the handler itself looks at it, the caller) to a
`Reply(store, out)`. The admin-only handlers take no caller: their `admin`
middleware is applied in `Routes`. The read handlers return a `Result` or a
map and leave the store alone. A `Reply` holds the store the handler leaves
behind and either its response or an error. The store is returned on
failure as well, because a failed shipment edit keeps the stock credits it
had already written.

Files:

| file | module | contents |
|---|---|---|
| `common.dfy` | `Common` | ids, time, callers, request fields (`Undefined`/`Null`/`Given`), the error kinds, JavaScript truthiness and `trim` |
| `model.dfy` | `Model` | `User`, `Product`, `Shipment`/`LineItem`, the enums and defaults, save validation, the store and its invariant `Valid` |
| `shipments.dfy` | `Shipments` | `createShipment`, `updateShipment`, `updateShipmentStatus`, `getShipmentById`, `getMyShipments`, `getAllShipments` |
| `shipment_props.dfy` | `ShipmentProperties` | successive edits and stock, the status fields, visibility of a created shipment |
| `products.dfy` | `Products` | `createProduct`, `updateProduct`, `deleteProduct`, `getMyProducts`, `getAllProductsAdmin` |
| `users.dfy` | `Users` | `getUsers`, `createUser`, `deleteUser`, `updateUser`, `updateUserProfile` |
| `routes.dfy` | `Routes` | the `admin` middleware, dispatch of every mutating request, runs of requests |
| `invariants.dfy` | `Invariants` | `Valid` holds initially and after every request |
| `scenarios.dfy` | `Scenarios` | one concrete lifecycle at rate 10 |

Modelling choices:

- Request-body fields are `Input<T>`, which is `Undefined`, `Null` or `Given(v)`. This keeps apart the two merge rules the
  controllers use: `field || current` keeps the old value for any falsy input, while
  `field !== undefined ? field : current` stores `0`, `false` and `null`.
- A Mongoose `required` String path rejects undefined, null and `""`, so a missing name or brand fails the save.
  In handlers with a `try/catch`, a failed save is a 500 (`ServerError`). `updateUser` and `updateUserProfile`
  have no `try/catch`, so a failed save there is an unhandled rejection with no response (`Unhandled`).
- Fresh ObjectIds come from a `nextId` counter in the store. `Valid` says every key is below it.
- Quantities, prices and stock are unbounded integers.
- `Date.now()` is a `now` parameter.
- The bcrypt hash of `p` is the value `Hashed(p)`.

## Behaviour kept as written

These are places where the code differs from what its own comments describe. The model follows the code.

- **Stock is never deducted.** The steps under the comments "Deduct Stock"
  (controllers/shipmentController.js:44) and "Deduct New Stock" (:273) are commented out. The revert phase still adds the replaced quantities back. So every edit raises stock by the list
  it replaces, whatever the new list is (`EditStockIgnoresNewItems`). Two edits credit both replaced lists
  (`TwoEditsCreditBothReplacedLists`). The comment at :240-241 describes the edit as "Revert Old Stock"
  followed by "remove old, add new"; only the first half runs.
- **The edit is not atomic.** The credit is written before the new items are checked. A missing product, a deleted
  sender or an absent `items` array then fails the edit. The credit stays and the shipment is unchanged, so a retry
  credits the old lines a second time (`RetriedEditCreditsOldLinesTwice`).
- **Quantities are not validated.** No handler checks that a quantity is positive. An edit to an empty list is
  accepted and gives totals of 0. A negative quantity is accepted too, and crediting it back drives a stock level
  below zero (`NegativeQuantityDrivesStockBelowZero`).
- **The status transition is unrestricted.** Any enum value may follow any other. Setting `pending` again makes a
  shipment editable (`ReopenedShipmentIsEditable`). A value outside the enum fails the save with a 500, and nothing
  is stored.
- **A status request is validated as a whole.** Both fields go into one `save()`, so one bad value discards the
  other. Splitting a request in two therefore changes the outcome: "received" with a bad payment value stores
  nothing when sent together, but stores and stamps "received" when sent first on its own
  (`SplitTransitionDiffersOnBadPayment`).
- **A deleted sender breaks the reads.** For a non-admin caller, `getShipmentById` dereferences the populated sender.
  That throws when the sender's user record is gone, which gives a 500.
- **Edits are not ownership-checked.** `updateShipment` checks only that the new products exist, not who owns them.
  The rate comes from the sender's record, not from the caller's.

## Model

| member | source | states |
|---|---|---|
| `Common.TrimEmptyIffBlank` | controllers/userController.js:94 | `s.trim() !== ''` holds exactly when `s` contains a character other than JavaScript whitespace |
| `Model.ParseRole` | models/User.js:8 | a role cast succeeds exactly for "admin" and "production", and casts back to the same name |
| `Model.ParseStatus` | models/Shipment.js:16-20 | `status` accepts exactly "pending", "received" and "rejected" |
| `Model.ParsePayment` | models/Shipment.js:21-25 | `paymentStatus` accepts exactly "unpaid" and "paid" |
| `Model.EnumNamesRoundTrip` | models/Shipment.js:16-25 | every status and payment status, and every role of the enum at models/User.js:8, is stored under a name that casts back to it |
| `Shipments.BuildLines` | controllers/shipmentController.js:25-57 | the item loop succeeds exactly when every item passes its check; the first failing item decides the error (missing before foreign); each line snapshots product id, current name, quantity and the one rate, in input order; the line quantities sum to the requested total |
| `Shipments.BuiltLinesUniform` | controllers/shipmentController.js:51-56 | every built line carries the same price, the rate it was built at |
| `Shipments.AccumulateQuantity` | controllers/shipmentController.js:49 | the running `totalQuantity +=` loop computes the sum of the requested quantities |
| `Shipments.CreateShipment` | controllers/shipmentController.js:8-89 | a missing or empty list gives 400; a missing caller record gives 500; a missing product gives 404 and a foreign one 401; no failure stores anything; success stores one shipment at a fresh id, sent by the caller, pending, unpaid, shipped now, with lines in input order at the caller's rate (`priceAllotted`, or 0 when unset), `totalQuantity` = sum and `totalAmount` = sum × rate, and leaves stock unchanged |
| `Shipments.CreditStock` | controllers/shipmentController.js:242-248 | every existing product's stock rises by the total quantity of the old lines that name it; missing products are skipped; no other field or key changes |
| `Shipments.UpdateShipment` | controllers/shipmentController.js:220-299 | a missing shipment gives 404, a non-pending one 400 whoever asks, and a caller who is neither sender nor admin 401, all with nothing changed; past these guards the stock credit is applied whatever follows; a deleted sender or absent `items` gives 500 and a missing new product 404, each keeping the credit and the shipment unchanged; success rebuilds the lines and totals at the sender's current rate and keeps sender, status, payment and timestamps |
| `Shipments.UpdateShipmentStatus` | controllers/shipmentController.js:123-148 | a missing shipment gives 404; an out-of-enum value gives 500 with nothing stored; otherwise each field is set only when supplied, `receivedAt` is stamped only when the status becomes received and `paidAt` only when payment becomes paid, and the lines, totals, sender and `shippedAt` are untouched |
| `Shipments.GetShipmentById` | controllers/shipmentController.js:330-354 | a missing shipment gives 404; an admin always reads it; for any other caller a deleted sender record gives 500, even when that caller is the sender; otherwise they read it only as its sender and get 403 when they are not |
| `Shipments.GetMyShipments` | controllers/shipmentController.js:94-102 | exactly the shipments whose sender is the caller |
| `ShipmentProperties.BuiltLinesQuantityFor` | controllers/shipmentController.js:277-284 | built lines carry, product by product, the requested quantities |
| `ShipmentProperties.EditStockIgnoresNewItems` | controllers/shipmentController.js:240-285 | two edits of the same shipment with different new items leave identical product stock, on success and on every failure path, because nothing is deducted for the new lines |
| `ShipmentProperties.EditNeverLowersStock` | controllers/shipmentController.js:240-247 | when the old lines carry non-negative quantities, an edit keeps every product and never lowers any stock level |
| `ShipmentProperties.TwoEditsCreditBothReplacedLists` | controllers/shipmentController.js:240-285 | after a successful edit to `a` and then any edit, each product's stock has risen by the original lines plus the quantities of `a` |
| `ShipmentProperties.RetriedEditCreditsOldLinesTwice` | controllers/shipmentController.js:240-290 | an edit that passes the guards and then fails leaves the shipment as it was and still admits edits, and any retry raises each product's stock by twice the old lines' quantities |
| `ShipmentProperties.ProcessedShipmentsAreFrozen` | controllers/shipmentController.js:230-233 | a received or rejected shipment cannot be edited by anyone, and the store stays as it was |
| `ShipmentProperties.ReopenedShipmentIsEditable` | controllers/shipmentController.js:133-134 | after the admin sets `status` to "pending", the sender or an admin passes the edit guards again |
| `ShipmentProperties.StatusFieldsIndependent` | controllers/shipmentController.js:133-141 | when both values are within their enums, setting `status` and then `paymentStatus` gives the same store as setting both at once |
| `ShipmentProperties.SplitTransitionDiffersOnBadPayment` | controllers/shipmentController.js:133-143 | with a payment value outside its enum, "received" and that value sent together give 500 and store nothing, while "received" sent alone is stored and stamped and the payment request then fails, so the two stores differ |
| `ShipmentProperties.TransitionRepeatRestamps` | controllers/shipmentController.js:133-141 | repeating a transition with a later clock gives the same shipment apart from the timestamps; `receivedAt` / `paidAt` are stamped again with the new time whenever the request names "received" / "paid", and otherwise keep their value |
| `ShipmentProperties.CreatedShipmentIsVisibleToSender` | controllers/shipmentController.js:59-72 | a created shipment's totals agree with its lines at one rate, and its sender lists it and may read it |
| `ShipmentProperties.EditedShipmentTotalsConsistent` | controllers/shipmentController.js:277-290 | an edited shipment's totals agree with its new lines at one rate |
| `Products.CreateProduct` | controllers/productController.js:17-38 | a missing or empty name or brand fails with nothing stored; otherwise a product owned by the caller is stored at a fresh id with stock 0, created now, with the upload's URL and id or "" |
| `Products.DeleteProduct` | controllers/productController.js:42-67 | a missing product gives 404 and a non-owner 401, both leaving it in place; the owner removes exactly that product |
| `Products.UpdateProduct` | controllers/productController.js:72-106 | a missing product or non-owner changes nothing; name and brand are replaced only by truthy values, the photo fields only by an upload; owner, stock and creation time never change |
| `Products.GetMyProducts` | controllers/productController.js:6-13 | exactly the products the caller owns |
| `Products.UpdateProductIdempotent` | controllers/productController.js:86-99 | repeating an update changes nothing more |
| `Products.EmptyUpdateKeepsProduct` | controllers/productController.js:87-88 | an update with falsy name and brand and no upload leaves the product as it was |
| `Products.CreateThenDeleteProduct` | controllers/productController.js:24-61 | a created product is listed for its owner, and deleting it restores the product collection |
| `Products.OnlyOwnerMutates` | controllers/productController.js:44-84 | a non-owner's update and delete are both refused with 401 and change nothing |
| `Users.GetUsers` | controllers/userController.js:7-14 | exactly the production users, without passwords |
| `Users.CreateUser` | controllers/userController.js:18-33 | an email in use gives 400 and adds nobody; missing required fields give 500; otherwise a user with role production (whatever the body says), the hashed password, `priceAllotted` from the body or 0, `isActive` true, and an email nobody else holds |
| `Users.DeleteUser` | controllers/userController.js:37-47 | a missing id gives 404; otherwise exactly that user is removed |
| `Users.AdminAssignedPassword` | controllers/userController.js:94-96 | the admin's update assigns a password exactly when it is truthy and not blank after trimming |
| `Users.UpdateUser` | controllers/userController.js:83-103 | a missing user gives 404; name, email, mobile and locality keep their value for falsy input; `priceAllotted` and `isActive` take any supplied value, null included; the password changes only for a non-blank value; role and creation time never change; a stored user fails only on an email someone else holds |
| `Users.UpdateUserProfile` | controllers/userController.js:52-79 | only the caller's record changes; role, rate, activity and locality never change; any truthy password is taken; the save fails only on an email someone else holds |
| `Users.BlankPasswordRules` | controllers/userController.js:61-95 | a whitespace-only password is taken by the profile update and ignored by the admin's update |
| `Users.UpdateUserIdempotent` | controllers/userController.js:87-95 | repeating an admin update changes nothing more (up to the hash salt, see below) |
| `Users.SaveKeepsEmailsUnique` | models/User.js:4-9 | a save that goes through keeps every email held by one user only and leaves the saved record with its required fields |
| `Users.AdminUpdateRehashesOnlyAssignedPassword` | models/User.js:17-24 | after the admin update, only the edited user's stored password can differ, and it is the hash of the supplied password exactly when that one is non-blank; otherwise the stored hash is kept |
| `Users.ProfileUpdateRehashesOnlyAssignedPassword` | models/User.js:17-24 | after a profile update, only the caller's stored password can differ; a truthy password is stored hashed, and without one the stored hash is kept |
| `Users.CreatedUserIsListed` | controllers/userController.js:9-27 | a created user appears in the admin's user listing |
| `Users.DuplicateEmailRefused` | controllers/userController.js:22-23 | registering an email another user holds fails with 400 and changes nothing |
| `Routes.Serve` | routes/shipmentRoutes.js:16-31 | behind the `admin` middleware, a non-admin's request to an admin route changes nothing; only shipment routes touch shipments; only the edit moves stock |
| `Routes.ListShipments` | routes/shipmentRoutes.js:16-29 | all shipments, to admins only; anyone else gets 401 |
| `Routes.ListProducts` | routes/productRoutes.js:16-30 | all products, to admins only; anyone else gets 401 |
| `Routes.ListUsers` | routes/userRoutes.js:7-16 | to an admin, exactly the production users, each viewed without the password; anyone else gets 401 |
| `Invariants.CreateShipmentKeepsValid` | controllers/shipmentController.js:59-72 | create keeps the store valid |
| `Invariants.UpdateShipmentKeepsValid` | controllers/shipmentController.js:287-292 | edit keeps the store valid, on failure too |
| `Invariants.UpdateShipmentStatusKeepsValid` | controllers/shipmentController.js:133-143 | the transition keeps the store valid |
| `Invariants.ProductRequestsKeepValid` | models/Product.js:3-14 | product create, update and delete keep the store valid (name and brand present) |
| `Invariants.CreateUserKeepsValid` | models/User.js:6 | create keeps emails unique |
| `Invariants.UpdateUserKeepsValid` | models/User.js:6 | the admin's update keeps emails unique |
| `Invariants.UpdateUserProfileKeepsValid` | models/User.js:6 | the profile update keeps emails unique |
| `Invariants.DeleteUserKeepsValid` | controllers/userController.js:37-43 | delete keeps the store valid |
| `Invariants.ServeKeepsValid` | server.js:16-19 | every request keeps the store valid |
| `Invariants.RunKeepsValid` | server.js:16-19 | every sequence of requests keeps the store valid |
| `Invariants.ReachableStoresAreConsistent` | models/Shipment.js:13-14 | in every reachable store, `totalQuantity` is the sum of the line quantities, `totalAmount` is that sum times the single rate of the lines, and emails are unique |
| `Scenarios.CreateAtRateTen` | controllers/shipmentController.js:49-70 | at rate 10, shipping 5 units gives totals 5 and 50, pending and unpaid, with stock unchanged |
| `Scenarios.EditWhilePending` | controllers/shipmentController.js:242-290 | editing to 3 + 2 units keeps totals 5 and 50; the first product's stock rises by 5 and nothing is deducted |
| `Scenarios.ReceivedThenFrozen` | controllers/shipmentController.js:133-135 | marking received stamps `receivedAt`, leaves payment unpaid, and blocks later edits |
| `Scenarios.NegativeQuantityDrivesStockBelowZero` | controllers/shipmentController.js:242-246 | a shipment of -3 units is accepted at amount -30, and editing it credits -3, so the product's stock falls below zero |

## Left out

- Users.UpdateUserIdempotent: holds only up to the password salt. Passwords are modelled as a salt-free `Hashed(plain)`. In the code a repeated update that carries a password assigns the plain text again, so the pre-save hook hashes it again with a fresh `genSalt` and the stored hash differs from the first one.
- Reporting aggregations `getShipmentReports` and `getWeeklyProductionStats`: these are database pipelines over calendar arithmetic, not part of the lifecycle.
- The SMS/WhatsApp notification stub in `createShipment`: it only logs.
- Media-store uploads and deletions in `createProduct`, `updateProduct` and `deleteProduct`: photo fields are opaque strings. A failing deletion, which would turn a delete or update into a 500, is not modelled.
- bcrypt hashing, salting and `matchPassword`: `Hashed(p)` stands for the hash of `p`.
- Mongoose's `isModified`: an assignment of the very string already stored, which Mongoose would not count as a change, is not modelled.
- Express wiring, the `protect` middleware and token issuance: `controllers/authController.js` and `middleware/authMiddleware.js` are not part of this model. A request arrives with its `Caller`.
- `populate` of the sender and the products in the reads: only its one observable effect is kept, the failure when a non-admin reads a shipment whose sender is gone.
- `Shipments.GetMyShipments`: returns the caller's shipments as a map; the newest-first order of the response is not modelled.
- `Shipments.GetAllShipments`: returns the shipments as a map; the newest-first order is not modelled.
- `Products.GetAllProducts`: returns the products as a map; the newest-first order is not modelled.
- `Shipments.CreditStock`: the save of each credited product is taken to succeed. Under `Valid` every stored product passes validation, and the credit does not touch the validated fields.
- JavaScript Numbers: quantities, prices and stock are integers. `Number(item.quantity)` string coercion, fractions, NaN and overflow are not modelled.
- Malformed ids: Mongoose cast errors for ids that are not ObjectIds are not modelled, since ids are `nat`.
- Request fields of the wrong JSON type, such as a number where a string is expected, are not modelled.
- Users.CreateUser: a create without an email is taken to match no stored user in the duplicate lookup. It then fails the required check with a 500. The lookup's treatment of an undefined filter value depends on driver settings.
- Concurrency: each request is one sequential step. Lost updates between simultaneous requests are not modelled.
- The `updateUserProfile` response refers to the wrong variable for `mobile`. This only affects the response body, and the model returns the saved record instead.

=== FILE: common.dfy ===
/**
  Vocabulary shared by every handler: identifiers, timestamps, callers,
  request-body fields as JavaScript sees them, the failure kinds a handler
  can answer with, and the string helpers the field-merge rules rely on.
 */
module Common {

  /** A document id (a MongoDB ObjectId); only equality matters. */
  type Id = nat

  /** A point in time, as the abstract `now` a handler is given. */
  type Time = int

  datatype Option<+T> = None | Some(value: T)

  datatype Result<+T> = Ok(value: T) | Err(error: Error)

  /** The failure a handler answers with, named after the response it sends. */
  datatype Error =
    | NoItems        // 400 "No items in shipment"
    | NotPending     // 400 "Cannot edit processed shipments"
    | UserExists     // 400 "User already exists"
    | NotAuthorized  // 401, from an ownership check or the admin gate
    | Forbidden      // 403, from the shipment read check
    | NotFound       // 404
    | ServerError    // 500: an exception the handler catches (a TypeError, a failed save)
    | Unhandled      // an exception in a handler with no try/catch: no response is sent

  datatype Role = Admin | Production

  /** The authenticated user a request runs for (the identity the protect middleware attaches). */
  datatype Caller = Caller(id: Id, role: Role)

  /**
    A request-body field. JavaScript tells three cases apart: the key is
    missing, it is `null`, or it holds a value.
   */
  datatype Input<+T> = Undefined | Null | Given(value: T)

  /**
    JavaScript truthiness of a string field: present, not null and not "".
    This is also exactly what Mongoose's `required` accepts for a String path.
   */
  predicate Truthy(s: Input<string>) {
    s.Given? && s.value != ""
  }

  /** `field || current`: the new value when it is truthy, otherwise the current one. */
  function OrKeep(field: Input<string>, current: string): string {
    if Truthy(field) then field.value else current
  }

  /** `field !== undefined ? field : current`, for a field that may be stored as null. */
  function UnlessUndefined<T>(field: Input<T>, current: Option<T>): Option<T> {
    match field
    case Undefined => current
    case Null => None
    case Given(v) => Some(v)
  }

  /**
    The characters `String.prototype.trim` removes: the ECMAScript WhiteSpace
    and LineTerminator code points.
   */
  predicate IsJsWhitespace(c: char) {
    || c == '\t' || c == '\n' || c == '\U{000B}' || c == '\U{000C}' || c == '\r' || c == ' '
    || c == '\U{00A0}' || c == '\U{1680}' || ('\U{2000}' <= c <= '\U{200A}')
    || c == '\U{2028}' || c == '\U{2029}' || c == '\U{202F}' || c == '\U{205F}'
    || c == '\U{3000}' || c == '\U{FEFF}'
  }

  /** A string made only of whitespace (the empty string included). */
  predicate Blank(s: string) {
    forall i :: 0 <= i < |s| ==> IsJsWhitespace(s[i])
  }

  function TrimStart(s: string): (r: string)
    ensures |r| <= |s| && r == s[|s| - |r|..]
    ensures r == "" || !IsJsWhitespace(r[0])
    ensures Blank(s[..|s| - |r|])
  {
    if |s| > 0 && IsJsWhitespace(s[0]) then
      var r := TrimStart(s[1..]);
      assert s[1..][..|s| - 1 - |r|] == s[1..|s| - |r|];
      assert s[..|s| - |r|] == [s[0]] + s[1..|s| - |r|];
      r
    else s
  }

  function TrimEnd(s: string): (r: string)
    ensures |r| <= |s| && r == s[..|r|]
    ensures r == "" || !IsJsWhitespace(r[|r| - 1])
    ensures Blank(s[|r|..])
  {
    if |s| > 0 && IsJsWhitespace(s[|s| - 1]) then
      var r := TrimEnd(s[..|s| - 1]);
      assert s[..|s| - 1][|r|..] == s[|r|..|s| - 1];
      assert s[|r|..] == s[|r|..|s| - 1] + [s[|s| - 1]];
      r
    else s
  }

  /** `s.trim()`. */
  function Trim(s: string): string {
    TrimEnd(TrimStart(s))
  }

  /** `s.trim() !== ''` holds exactly when `s` has a character that is not whitespace. */
  lemma TrimEmptyIffBlank(s: string)
    ensures Trim(s) == "" <==> Blank(s)
  {
    var t := TrimStart(s);
    if Trim(s) == "" {
      assert Blank(t[0..]);
      assert s == s[..|s| - |t|] + t;
    } else {
      assert t != "";
      assert s[|s| - |t|] == t[0];
    }
  }
}

=== FILE: invariants.dfy ===
/**
  The store invariant `Valid` holds of the empty store and survives every
  request, so it holds of every store the backend can reach: ids stay fresh,
  emails stay unique, required fields stay present, and every shipment's
  totals agree with its lines at one uniform rate.
 */
module Invariants {
  import opened Common
  import opened Model
  import opened Shipments
  import opened ShipmentProperties
  import opened Products
  import opened Users
  import opened Routes

  /** The store before any request. */
  function EmptyStore(): (st: Store)
    ensures Valid(st)
  {
    Store(map[], map[], map[], 0)
  }

  lemma CreateShipmentKeepsValid(st: Store, caller: Caller, items: Input<seq<ItemInput>>, now: Time)
    requires Valid(st)
    ensures Valid(CreateShipment(st, caller, items, now).store)
  {
    if CreateShipment(st, caller, items, now).out.Ok? {
      CreatedShipmentIsVisibleToSender(st, caller, items, now);
    }
  }

  lemma UpdateShipmentKeepsValid(st: Store, caller: Caller, id: Id, items: Input<seq<ItemInput>>)
    requires Valid(st)
    ensures Valid(UpdateShipment(st, caller, id, items).store)
  {
    if UpdateShipment(st, caller, id, items).out.Ok? {
      EditedShipmentTotalsConsistent(st, caller, id, items);
    }
  }

  lemma UpdateShipmentStatusKeepsValid(st: Store, id: Id, status: Input<string>, paymentStatus: Input<string>, now: Time)
    requires Valid(st)
    ensures Valid(UpdateShipmentStatus(st, id, status, paymentStatus, now).store)
  {
  }

  lemma ProductRequestsKeepValid(st: Store, caller: Caller, id: Id, name: Input<string>, brand: Input<string>, file: Option<Upload>, now: Time)
    requires Valid(st)
    ensures Valid(CreateProduct(st, caller, name, brand, file, now).store)
    ensures Valid(UpdateProduct(st, caller, id, name, brand, file).store)
    ensures Valid(DeleteProduct(st, caller, id).store)
  {
  }

  lemma CreateUserKeepsValid(st: Store, body: NewUser, now: Time)
    requires Valid(st)
    ensures Valid(CreateUser(st, body, now).store)
  {
    var r := CreateUser(st, body, now);
    if r.out.Ok? {
      var (id, u) := r.out.value;
      forall j, k | j in r.store.users && k in r.store.users && r.store.users[j].email == r.store.users[k].email
        ensures j == k
      {
        assert j != id ==> j in st.users;
        assert k != id ==> k in st.users;
      }
    }
  }

  /** Replacing a stored user by a record with its required fields and an email nobody else holds keeps the store valid. */
  lemma ReplaceUserKeepsValid(st: Store, id: Id, u: User)
    requires Valid(st) && id in st.users
    requires UserFieldsPresent(u) && !EmailTaken(st.users, u.email, Some(id))
    ensures Valid(st.(users := st.users[id := u]))
  {
    var users := st.users[id := u];
    forall j, k | j in users && k in users && users[j].email == users[k].email
      ensures j == k
    {
      if j != id && k != id {
        assert st.users[j].email == st.users[k].email;
      }
    }
  }

  lemma UpdateUserKeepsValid(st: Store, id: Id, ch: UserChanges)
    requires Valid(st)
    ensures Valid(UpdateUser(st, id, ch).store)
  {
    var r := UpdateUser(st, id, ch);
    if r.out.Ok? {
      assert UserFieldsPresent(r.out.value);
      ReplaceUserKeepsValid(st, id, r.out.value);
    }
  }

  lemma UpdateUserProfileKeepsValid(st: Store, caller: Caller, ch: ProfileChanges)
    requires Valid(st)
    ensures Valid(UpdateUserProfile(st, caller, ch).store)
  {
    var r := UpdateUserProfile(st, caller, ch);
    if r.out.Ok? {
      assert UserFieldsPresent(r.out.value);
      ReplaceUserKeepsValid(st, caller.id, r.out.value);
    }
  }

  lemma DeleteUserKeepsValid(st: Store, id: Id)
    requires Valid(st)
    ensures Valid(DeleteUser(st, id).store)
  {
  }

  /** Serving any request keeps the store valid. */
  lemma ServeKeepsValid(st: Store, req: Request)
    requires Valid(st)
    ensures Valid(Serve(st, req))
  {
    match req
    case PostShipment(c, items, now) => CreateShipmentKeepsValid(st, c, items, now);
    case EditShipment(c, id, items) => UpdateShipmentKeepsValid(st, c, id, items);
    case PutShipmentStatus(c, id, s, p, now) => UpdateShipmentStatusKeepsValid(st, id, s, p, now);
    case PostProduct(c, name, brand, file, now) => ProductRequestsKeepValid(st, c, 0, name, brand, file, now);
    case PutProduct(c, id, name, brand, file) => ProductRequestsKeepValid(st, c, id, name, brand, file, 0);
    case DeleteProductReq(c, id) => ProductRequestsKeepValid(st, c, id, Undefined, Undefined, None, 0);
    case PostUser(c, body, now) => CreateUserKeepsValid(st, body, now);
    case PutUser(c, id, ch) => UpdateUserKeepsValid(st, id, ch);
    case DeleteUserReq(c, id) => DeleteUserKeepsValid(st, id);
    case PutProfile(c, ch) => UpdateUserProfileKeepsValid(st, c, ch);
  }

  /** Every store reachable by a sequence of requests is valid. */
  lemma {:induction false} RunKeepsValid(st: Store, reqs: seq<Request>)
    requires Valid(st)
    ensures Valid(Run(st, reqs))
    decreases |reqs|
  {
    if reqs != [] {
      ServeKeepsValid(st, reqs[0]);
      RunKeepsValid(Serve(st, reqs[0]), reqs[1..]);
    }
  }

  /**
    In every reachable store, each shipment's total quantity is the sum of
    its lines' quantities and its amount is that total times the one rate
    all its lines carry; and no two users share an email.
   */
  lemma ReachableStoresAreConsistent(reqs: seq<Request>, id: Id)
    ensures var st := Run(EmptyStore(), reqs);
      && (id in st.shipments ==>
            && st.shipments[id].totalQuantity == LineQuantity(st.shipments[id].items)
            && UniformRate(st.shipments[id].items)
            && st.shipments[id].totalAmount == st.shipments[id].totalQuantity * ShipmentRate(st.shipments[id].items))
      && EmailsUnique(st.users)
  {
    RunKeepsValid(EmptyStore(), reqs);
  }
}

=== FILE: model.dfy ===
/**
  The three document kinds (User, Product, Shipment with its embedded line
  items), their enumerations and defaults, the validation Mongoose applies
  when a document is saved, and the store: one finite map per collection.
 */
module Model {
  import opened Common

  // ---------------------------------------------------------------- users

  /**
    A stored password. The save hook hashes a password whenever it was
    assigned; `Hashed(p)` stands for the bcrypt hash of the plain text `p`
    (salting and bcrypt itself are outside the model).
   */
  datatype Password = Hashed(plain: string)

  datatype User = User(
    name: string,
    email: string,
    password: Password,
    role: Role,
    mobile: string,
    locality: Option<string>,
    priceAllotted: Option<int>,  // None: the field holds null
    isActive: Option<bool>,      // None: the field holds null
    createdAt: Time)

  const DefaultPriceAllotted: int := 0
  const DefaultIsActive: bool := true

  function RoleName(r: Role): string {
    match r
    case Admin => "admin"
    case Production => "production"
  }

  /** Casting a string to the `role` enum: only the two listed names are accepted. */
  function ParseRole(s: string): (r: Option<Role>)
    ensures r.Some? <==> s == "admin" || s == "production"
    ensures r.Some? ==> RoleName(r.value) == s
  {
    if s == "admin" then Some(Admin)
    else if s == "production" then Some(Production)
    else None
  }

  /**
    The pre-save hook: a password assigned since the last save is hashed,
    an untouched one is stored as it is.
   */
  function HashOnSave(current: Password, newPassword: Option<string>): (r: Password)
    ensures newPassword.None? ==> r == current
    ensures newPassword.Some? ==> r == Hashed(newPassword.value)
  {
    match newPassword
    case None => current
    case Some(p) => Hashed(p)
  }

  /** Validation of the required String paths of a user (`name`, `email`, `mobile`). */
  predicate UserFieldsPresent(u: User) {
    u.name != "" && u.email != "" && u.mobile != ""
  }

  /** Some user other than `except` already holds `email` (the unique index on `email`). */
  predicate EmailTaken(users: map<Id, User>, email: string, except: Option<Id>) {
    exists k :: k in users && users[k].email == email && Some(k) != except
  }

  predicate EmailsUnique(users: map<Id, User>) {
    forall j, k :: j in users && k in users && users[j].email == users[k].email ==> j == k
  }

  // ------------------------------------------------------------- products

  datatype Product = Product(
    owner: Id,
    name: string,
    brand: string,
    photoUrl: Option<string>,
    cloudinaryId: Option<string>,
    currentStock: int,           // a plain Number: no lower bound
    createdAt: Time)

  const DefaultStock: int := 0

  /** Validation of the required String paths of a product (`name`, `brand`). */
  predicate ProductFieldsPresent(p: Product) {
    p.name != "" && p.brand != ""
  }

  // ------------------------------------------------------------ shipments

  datatype Status = Pending | Received | Rejected

  datatype PaymentStatus = Unpaid | Paid

  const DefaultStatus: Status := Pending
  const DefaultPaymentStatus: PaymentStatus := Unpaid

  function StatusName(s: Status): string {
    match s
    case Pending => "pending"
    case Received => "received"
    case Rejected => "rejected"
  }

  function PaymentName(p: PaymentStatus): string {
    match p
    case Unpaid => "unpaid"
    case Paid => "paid"
  }

  /** Casting a string to the `status` enum: only the three listed names are accepted. */
  function ParseStatus(s: string): (r: Option<Status>)
    ensures r.Some? <==> s == "pending" || s == "received" || s == "rejected"
    ensures r.Some? ==> StatusName(r.value) == s
  {
    if s == "pending" then Some(Pending)
    else if s == "received" then Some(Received)
    else if s == "rejected" then Some(Rejected)
    else None
  }

  /** Casting a string to the `paymentStatus` enum: only the two listed names are accepted. */
  function ParsePayment(s: string): (r: Option<PaymentStatus>)
    ensures r.Some? <==> s == "unpaid" || s == "paid"
    ensures r.Some? ==> PaymentName(r.value) == s
  {
    if s == "unpaid" then Some(Unpaid)
    else if s == "paid" then Some(Paid)
    else None
  }

  /** Every enum value is written under a name that casts back to it. */
  lemma EnumNamesRoundTrip(s: Status, p: PaymentStatus, r: Role)
    ensures ParseStatus(StatusName(s)) == Some(s)
    ensures ParsePayment(PaymentName(p)) == Some(p)
    ensures ParseRole(RoleName(r)) == Some(r)
  {
  }

  /** One embedded line item: a snapshot of the product's name and the sender's rate. */
  datatype LineItem = LineItem(product: Id, productName: string, quantity: int, pricePerUnit: int)

  datatype Shipment = Shipment(
    sender: Id,
    items: seq<LineItem>,
    totalQuantity: int,
    totalAmount: int,
    status: Status,
    paymentStatus: PaymentStatus,
    shippedAt: Time,
    receivedAt: Option<Time>,
    paidAt: Option<Time>)

  /** Sum of the quantities of a list of line items. */
  function LineQuantity(items: seq<LineItem>): int {
    if items == [] then 0 else items[0].quantity + LineQuantity(items[1..])
  }

  /** The rate of a shipment: the price every one of its lines carries (0 for no lines). */
  function ShipmentRate(items: seq<LineItem>): int {
    if items == [] then 0 else items[0].pricePerUnit
  }

  /** Every line carries the same price. */
  predicate UniformRate(items: seq<LineItem>) {
    forall i :: 0 <= i < |items| ==> items[i].pricePerUnit == ShipmentRate(items)
  }

  /** The totals a shipment carries agree with its lines, priced at one uniform rate. */
  predicate TotalsConsistent(s: Shipment) {
    && UniformRate(s.items)
    && s.totalQuantity == LineQuantity(s.items)
    && s.totalAmount == s.totalQuantity * ShipmentRate(s.items)
  }

  /**
    A new shipment document: the fields the schema requires are arguments,
    the rest take their schema defaults.
   */
  function NewShipmentDoc(sender: Id, items: seq<LineItem>, totalQuantity: int, totalAmount: int, now: Time): Shipment {
    Shipment(sender, items, totalQuantity, totalAmount, DefaultStatus, DefaultPaymentStatus, now, None, None)
  }

  // ---------------------------------------------------------------- store

  /** The document store: one map per collection, and the next unused id. */
  datatype Store = Store(
    users: map<Id, User>,
    products: map<Id, Product>,
    shipments: map<Id, Shipment>,
    nextId: Id)

  /** The handler's answer: the store it leaves behind and the response or error. */
  datatype Reply<+T> = Reply(store: Store, out: Result<T>)

  predicate IdsBelow(st: Store) {
    && (forall k :: k in st.users ==> k < st.nextId)
    && (forall k :: k in st.products ==> k < st.nextId)
    && (forall k :: k in st.shipments ==> k < st.nextId)
  }

  /**
    What every reachable store satisfies: ids are fresh below `nextId`,
    emails are unique, required fields are present, and every shipment's
    totals agree with its lines. Nothing here says `currentStock >= 0`:
    the code keeps no such rule.
   */
  predicate Valid(st: Store) {
    && IdsBelow(st)
    && EmailsUnique(st.users)
    && (forall k :: k in st.users ==> UserFieldsPresent(st.users[k]))
    && (forall k :: k in st.products ==> ProductFieldsPresent(st.products[k]))
    && (forall k :: k in st.shipments ==> TotalsConsistent(st.shipments[k]))
  }
}

=== FILE: products.dfy ===
/**
  Product management: a production user's own stock products. Every
  mutation is gated on ownership; `currentStock` starts at 0 and is only
  ever moved by the shipment edit.
 */
module Products {
  import opened Common
  import opened Model

  /** An uploaded image as the upload middleware reports it: its URL and its media-store id. */
  datatype Upload = Upload(path: string, filename: string)

  /**
    `createProduct`: a new product owned by the caller with no stock. The
    photo fields hold the upload's URL and id, or "" without an upload.
    A missing or empty `name` or `brand` fails the save.
   */
  function CreateProduct(st: Store, caller: Caller, name: Input<string>, brand: Input<string>, file: Option<Upload>, now: Time): (r: Reply<(Id, Product)>)
    ensures r.out.Err? <==> !Truthy(name) || !Truthy(brand)
    ensures r.out.Err? ==> r == Reply(st, Err(ServerError))
    ensures r.out.Ok? ==>
      var id := r.out.value.0;
      var p := r.out.value.1;
      && id == st.nextId
      && r.store == st.(products := st.products[id := p], nextId := st.nextId + 1)
      && p.owner == caller.id && p.name == name.value && p.brand == brand.value
      && p.currentStock == 0 && p.createdAt == now
      && p.photoUrl == Some(if file.Some? then file.value.path else "")
      && p.cloudinaryId == Some(if file.Some? then file.value.filename else "")
  {
    var photoUrl := if file.Some? then file.value.path else "";
    var cloudinaryId := if file.Some? then file.value.filename else "";
    if !Truthy(name) || !Truthy(brand) then Reply(st, Err(ServerError))
    else
      var p := Product(caller.id, name.value, brand.value, Some(photoUrl), Some(cloudinaryId), DefaultStock, now);
      Reply(st.(products := st.products[st.nextId := p], nextId := st.nextId + 1), Ok((st.nextId, p)))
  }

  /**
    `deleteProduct`: only the owner may remove a product; shipments that
    reference it keep their snapshots.
   */
  function DeleteProduct(st: Store, caller: Caller, id: Id): (r: Reply<()>)
    ensures id !in st.products ==> r == Reply(st, Err(NotFound))
    ensures id in st.products && st.products[id].owner != caller.id ==> r == Reply(st, Err(NotAuthorized))
    ensures r.out.Ok? <==> id in st.products && st.products[id].owner == caller.id
    ensures r.out.Ok? ==> r.store == st.(products := st.products - {id})
  {
    if id !in st.products then Reply(st, Err(NotFound))
    else if st.products[id].owner != caller.id then Reply(st, Err(NotAuthorized))
    else Reply(st.(products := st.products - {id}), Ok(()))
  }

  /**
    `updateProduct`: the owner may rename and rebrand (a falsy value keeps
    the old one) and replace the photo by uploading a new one. The owner,
    the stock and the creation time never change.
   */
  function UpdateProduct(st: Store, caller: Caller, id: Id, name: Input<string>, brand: Input<string>, file: Option<Upload>): (r: Reply<Product>)
    ensures id !in st.products ==> r == Reply(st, Err(NotFound))
    ensures id in st.products && st.products[id].owner != caller.id ==> r == Reply(st, Err(NotAuthorized))
    ensures r.out.Err? ==> r.store == st
    // a stored product always passes validation again
    ensures id in st.products && st.products[id].owner == caller.id && ProductFieldsPresent(st.products[id]) ==> r.out.Ok?
    ensures r.out.Ok? ==>
      var prev := st.products[id];
      var p := r.out.value;
      && r.store == st.(products := st.products[id := p])
      && p.owner == prev.owner == caller.id
      && p.currentStock == prev.currentStock && p.createdAt == prev.createdAt
      && p.name == (if Truthy(name) then name.value else prev.name)
      && p.brand == (if Truthy(brand) then brand.value else prev.brand)
      && (file.None? ==> p.photoUrl == prev.photoUrl && p.cloudinaryId == prev.cloudinaryId)
      && (file.Some? ==> p.photoUrl == Some(file.value.path) && p.cloudinaryId == Some(file.value.filename))
  {
    if id !in st.products then Reply(st, Err(NotFound))
    else
      var prev := st.products[id];
      if prev.owner != caller.id then Reply(st, Err(NotAuthorized))
      else
        var renamed := prev.(name := OrKeep(name, prev.name), brand := OrKeep(brand, prev.brand));
        var p :=
          if file.Some? then renamed.(photoUrl := Some(file.value.path), cloudinaryId := Some(file.value.filename))
          else renamed;
        if !ProductFieldsPresent(p) then Reply(st, Err(ServerError))
        else Reply(st.(products := st.products[id := p]), Ok(p))
  }

  /** `getMyProducts`: exactly the products the caller owns. */
  function GetMyProducts(st: Store, caller: Caller): (r: map<Id, Product>)
    ensures forall k :: k in r <==> k in st.products && st.products[k].owner == caller.id
    ensures forall k :: k in r ==> r[k] == st.products[k]
  {
    map k | k in st.products && st.products[k].owner == caller.id :: st.products[k]
  }

  /** `getAllProductsAdmin`: every product (the route admits admins only). */
  function GetAllProducts(st: Store): map<Id, Product> {
    st.products
  }

  // ------------------------------------------------------------ properties

  /** Applying the same update twice leaves the same store as applying it once. */
  lemma UpdateProductIdempotent(st: Store, caller: Caller, id: Id, name: Input<string>, brand: Input<string>, file: Option<Upload>)
    requires UpdateProduct(st, caller, id, name, brand, file).out.Ok?
    ensures
      var once := UpdateProduct(st, caller, id, name, brand, file);
      UpdateProduct(once.store, caller, id, name, brand, file) == once
  {
  }

  /** An update that supplies nothing leaves a valid product exactly as it was. */
  lemma EmptyUpdateKeepsProduct(st: Store, caller: Caller, id: Id, name: Input<string>, brand: Input<string>)
    requires id in st.products && st.products[id].owner == caller.id && ProductFieldsPresent(st.products[id])
    requires !Truthy(name) && !Truthy(brand)
    ensures UpdateProduct(st, caller, id, name, brand, None) == Reply(st, Ok(st.products[id]))
  {
  }

  /**
    A created product is listed for its owner, and deleting it again
    restores the product collection of a store whose ids are all below its
    counter.
   */
  lemma CreateThenDeleteProduct(st: Store, caller: Caller, name: Input<string>, brand: Input<string>, file: Option<Upload>, now: Time)
    requires IdsBelow(st)
    requires CreateProduct(st, caller, name, brand, file, now).out.Ok?
    ensures
      var c := CreateProduct(st, caller, name, brand, file, now);
      && c.out.value.0 in GetMyProducts(c.store, caller)
      && DeleteProduct(c.store, caller, c.out.value.0).store.products == st.products
  {
  }

  /** Someone other than the owner can neither update nor delete a product, and the product remains. */
  lemma OnlyOwnerMutates(st: Store, caller: Caller, id: Id, name: Input<string>, brand: Input<string>, file: Option<Upload>)
    requires id in st.products && st.products[id].owner != caller.id
    ensures UpdateProduct(st, caller, id, name, brand, file) == Reply(st, Err(NotAuthorized))
    ensures DeleteProduct(st, caller, id) == Reply(st, Err(NotAuthorized))
    ensures id !in GetMyProducts(st, caller)
  {
  }
}

=== FILE: routes.dfy ===
/**
  The routing layer as far as it decides anything: which handler a request
  reaches, and the `admin` middleware that each route module declares for
  itself and puts in front of its admin-only routes. Authentication itself
  is outside the model; a request arrives with its caller.
 */
module Routes {
  import opened Common
  import opened Model
  import opened Shipments
  import opened Products
  import opened Users

  /** The `admin` middleware in front of a mutating route: anyone else gets 401 and the handler never runs. */
  function AdminOnly<T>(st: Store, caller: Caller, handled: Reply<T>): (r: Reply<T>)
    ensures caller.role != Admin ==> r == Reply(st, Err(NotAuthorized))
    ensures caller.role == Admin ==> r == handled
  {
    if caller.role == Admin then handled else Reply(st, Err(NotAuthorized))
  }

  /** The `admin` middleware in front of a listing. */
  function AdminListing<T>(caller: Caller, listing: T): (r: Result<T>)
    ensures r.Ok? <==> caller.role == Admin
    ensures r.Ok? ==> r.value == listing
    ensures r.Err? ==> r.error == NotAuthorized
  {
    if caller.role == Admin then Ok(listing) else Err(NotAuthorized)
  }

  /** Every request that can change the store, with the caller it runs for. */
  datatype Request =
    | PostShipment(caller: Caller, items: Input<seq<ItemInput>>, now: Time)
    | EditShipment(caller: Caller, id: Id, items: Input<seq<ItemInput>>)
    | PutShipmentStatus(caller: Caller, id: Id, status: Input<string>, paymentStatus: Input<string>, now: Time)
    | PostProduct(caller: Caller, name: Input<string>, brand: Input<string>, file: Option<Upload>, now: Time)
    | PutProduct(caller: Caller, id: Id, name: Input<string>, brand: Input<string>, file: Option<Upload>)
    | DeleteProductReq(caller: Caller, id: Id)
    | PostUser(caller: Caller, body: NewUser, now: Time)
    | PutUser(caller: Caller, id: Id, changes: UserChanges)
    | DeleteUserReq(caller: Caller, id: Id)
    | PutProfile(caller: Caller, profile: ProfileChanges)

  /** The store a request leaves behind, whatever it answers. */
  function Serve(st: Store, req: Request): (r: Store)
    // the admin-only routes change nothing for anyone else
    ensures (req.PutShipmentStatus? || req.PostUser? || req.PutUser? || req.DeleteUserReq?) && req.caller.role != Admin ==>
      r == st
    // shipments are only ever touched by the shipment routes
    ensures !(req.PostShipment? || req.EditShipment? || req.PutShipmentStatus?) ==> r.shipments == st.shipments
    // stock only ever moves through a shipment edit (fresh ids never overwrite a product)
    ensures IdsBelow(st) && !req.EditShipment? ==> forall p :: p in st.products && p in r.products ==>
      r.products[p].currentStock == st.products[p].currentStock
  {
    match req
    case PostShipment(c, items, now) => CreateShipment(st, c, items, now).store
    case EditShipment(c, id, items) => UpdateShipment(st, c, id, items).store
    case PutShipmentStatus(c, id, s, p, now) => AdminOnly(st, c, UpdateShipmentStatus(st, id, s, p, now)).store
    case PostProduct(c, name, brand, file, now) => CreateProduct(st, c, name, brand, file, now).store
    case PutProduct(c, id, name, brand, file) => UpdateProduct(st, c, id, name, brand, file).store
    case DeleteProductReq(c, id) => DeleteProduct(st, c, id).store
    case PostUser(c, body, now) => AdminOnly(st, c, CreateUser(st, body, now)).store
    case PutUser(c, id, ch) => AdminOnly(st, c, UpdateUser(st, id, ch)).store
    case DeleteUserReq(c, id) => AdminOnly(st, c, DeleteUser(st, id)).store
    case PutProfile(c, ch) => UpdateUserProfile(st, c, ch).store
  }

  /** The store after a sequence of requests, served one after another. */
  function Run(st: Store, reqs: seq<Request>): Store
    decreases |reqs|
  {
    if reqs == [] then st else Run(Serve(st, reqs[0]), reqs[1..])
  }

  /** The admin listings: all shipments, all products, the production users. */
  function ListShipments(st: Store, caller: Caller): (r: Result<map<Id, Shipment>>)
    ensures r.Ok? <==> caller.role == Admin
    ensures r.Ok? ==> r.value == st.shipments
  {
    AdminListing(caller, GetAllShipments(st))
  }

  function ListProducts(st: Store, caller: Caller): (r: Result<map<Id, Product>>)
    ensures r.Ok? <==> caller.role == Admin
    ensures r.Ok? ==> r.value == st.products
  {
    AdminListing(caller, GetAllProducts(st))
  }

  function ListUsers(st: Store, caller: Caller): (r: Result<map<Id, UserView>>)
    ensures r.Ok? <==> caller.role == Admin
    ensures r.Ok? ==> forall k :: k in r.value <==> k in st.users && st.users[k].role == Production
    ensures r.Ok? ==> forall k :: k in r.value ==> r.value[k] == View(st.users[k])
  {
    AdminListing(caller, GetUsers(st))
  }
}

=== FILE: scenarios.dfy ===
/**
  One lifecycle on concrete data: a production user with rate 10 ships,
  edits while pending, the admin marks the shipment received, and a second
  edit is refused.
 */
module Scenarios {
  import opened Common
  import opened Model
  import opened Shipments

  const Sender: Id := 1
  const P1: Id := 2
  const P2: Id := 3

  function Start(): Store {
    var s := User("S", "s@example.com", Hashed("pw"), Production, "555", None, Some(10), Some(true), 0);
    var p1 := Product(Sender, "Bricks", "Acme", Some(""), Some(""), 0, 0);
    var p2 := Product(Sender, "Tiles", "Acme", Some(""), Some(""), 0, 0);
    Store(map[Sender := s], map[P1 := p1, P2 := p2], map[], 4)
  }

  /**
    Creating `[P1 x 5]` gives totals 5 and 50, pending and unpaid, and
    leaves the stock alone.
   */
  lemma CreateAtRateTen()
    ensures
      var r := CreateShipment(Start(), Caller(Sender, Production), Given([ItemInput(P1, 5)]), 100);
      && r.out.Ok? && r.out.value.0 == 4
      && r.out.value.1.totalQuantity == 5 && r.out.value.1.totalAmount == 50
      && r.out.value.1.status == Pending && r.out.value.1.paymentStatus == Unpaid
      && r.store.products == Start().products
  {
  }

  /**
    Editing it to `[P1 x 3, P2 x 2]` keeps totals 5 and 50; P1's stock goes
    up by the 5 replaced units and nothing is taken for the new lines.
   */
  lemma EditWhilePending()
    ensures
      var c := CreateShipment(Start(), Caller(Sender, Production), Given([ItemInput(P1, 5)]), 100);
      var e := UpdateShipment(c.store, Caller(Sender, Production), 4, Given([ItemInput(P1, 3), ItemInput(P2, 2)]));
      && e.out.Ok?
      && e.out.value.totalQuantity == 5 && e.out.value.totalAmount == 50
      && e.store.products[P1].currentStock == 5
      && e.store.products[P2].currentStock == 0
  {
    var c := CreateShipment(Start(), Caller(Sender, Production), Given([ItemInput(P1, 5)]), 100);
    assert c.store.shipments[4].items == [LineItem(P1, "Bricks", 5, 10)];
    assert QuantityFor([LineItem(P1, "Bricks", 5, 10)], P1) == 5;
    assert QuantityFor([LineItem(P1, "Bricks", 5, 10)], P2) == 0;
    var items := [ItemInput(P1, 3), ItemInput(P2, 2)];
    assert EditAdmitted(c.store, Caller(Sender, Production), 4);
    assert RequestedQuantity(items[1..]) == 2;
    assert RequestedQuantity(items) == 5;
    assert forall i :: 0 <= i < |items| ==> items[i].productId in c.store.products;
  }

  /** The admin marks it received: `receivedAt` is stamped, payment stays unpaid, and edits are refused. */
  lemma ReceivedThenFrozen()
    ensures
      var c := CreateShipment(Start(), Caller(Sender, Production), Given([ItemInput(P1, 5)]), 100);
      var t := UpdateShipmentStatus(c.store, 4, Given("received"), Undefined, 200);
      && t.out.Ok?
      && t.out.value.receivedAt == Some(200) && t.out.value.paymentStatus == Unpaid
      && UpdateShipment(t.store, Caller(Sender, Production), 4, Given([ItemInput(P1, 1)])) == Reply(t.store, Err(NotPending))
  {
  }

  /**
    Neither the shipment schema nor the product schema bounds a quantity or
    a stock level: a shipment of `-3` units is accepted, and editing it
    credits `-3`, leaving P1's stock below zero.
   */
  lemma NegativeQuantityDrivesStockBelowZero()
    ensures
      var c := CreateShipment(Start(), Caller(Sender, Production), Given([ItemInput(P1, -3)]), 100);
      var e := UpdateShipment(c.store, Caller(Sender, Production), 4, Given([ItemInput(P2, 1)]));
      && c.out.Ok? && c.out.value.1.totalAmount == -30
      && e.out.Ok?
      && e.store.products[P1].currentStock == -3
  {
    var c := CreateShipment(Start(), Caller(Sender, Production), Given([ItemInput(P1, -3)]), 100);
    assert c.store.shipments[4].items == [LineItem(P1, "Bricks", -3, 10)];
    assert QuantityFor([LineItem(P1, "Bricks", -3, 10)], P1) == -3;
    assert QuantityFor([LineItem(P1, "Bricks", -3, 10)], P2) == 0;
    var items := [ItemInput(P2, 1)];
    assert EditAdmitted(c.store, Caller(Sender, Production), 4);
    assert forall i :: 0 <= i < |items| ==> items[i].productId in c.store.products;
  }
}

=== FILE: shipment_props.dfy ===
/**
  Properties that relate several shipment operations: what successive
  edits do to stock, how the two status fields and the edit guard interact,
  and what a created shipment looks like to the reads.
 */
module ShipmentProperties {
  import opened Common
  import opened Model
  import opened Shipments

  /** Sum of the requested quantities for product `p`. */
  function RequestedFor(items: seq<ItemInput>, p: Id): int {
    if items == [] then 0
    else (if items[0].productId == p then items[0].quantity else 0) + RequestedFor(items[1..], p)
  }

  /** Lines built from a request carry, product by product, the requested quantities. */
  lemma {:induction false} BuiltLinesQuantityFor(products: map<Id, Product>, owner: Option<Id>, items: seq<ItemInput>, rate: int, p: Id)
    requires BuildLines(products, owner, items, rate).Ok?
    ensures QuantityFor(BuildLines(products, owner, items, rate).value, p) == RequestedFor(items, p)
  {
    if items != [] {
      var lines := BuildLines(products, owner, items, rate).value;
      assert ItemCheck(products, owner, items[0]).None?;
      assert BuildLines(products, owner, items[1..], rate).value == lines[1..];
      BuiltLinesQuantityFor(products, owner, items[1..], rate, p);
    }
  }

  /** With non-negative quantities, crediting a list of lines never lowers a product's stock. */
  lemma {:induction false} QuantityForNonNegative(lines: seq<LineItem>, p: Id)
    requires forall i :: 0 <= i < |lines| ==> lines[i].quantity >= 0
    ensures QuantityFor(lines, p) >= 0
  {
    if lines != [] {
      assert forall i :: 0 <= i < |lines| - 1 ==> lines[1..][i] == lines[i + 1];
      QuantityForNonNegative(lines[1..], p);
    }
  }

  /**
    Stock is never deducted: whatever the new items are, an edit leaves
    the same product stock behind, whether it succeeds or fails and on
    which guard.
   */
  lemma EditStockIgnoresNewItems(st: Store, caller: Caller, id: Id, a: Input<seq<ItemInput>>, b: Input<seq<ItemInput>>)
    ensures UpdateShipment(st, caller, id, a).store.products == UpdateShipment(st, caller, id, b).store.products
  {
  }

  /** With non-negative old quantities, an edit never lowers any product's stock. */
  lemma EditNeverLowersStock(st: Store, caller: Caller, id: Id, items: Input<seq<ItemInput>>)
    requires id in st.shipments
    requires forall i :: 0 <= i < |st.shipments[id].items| ==> st.shipments[id].items[i].quantity >= 0
    ensures forall p :: p in st.products ==>
      p in UpdateShipment(st, caller, id, items).store.products &&
      UpdateShipment(st, caller, id, items).store.products[p].currentStock >= st.products[p].currentStock
  {
    if EditAdmitted(st, caller, id) {
      forall p | p in st.products
        ensures UpdateShipment(st, caller, id, items).store.products[p].currentStock >= st.products[p].currentStock
      {
        QuantityForNonNegative(st.shipments[id].items, p);
      }
    }
  }

  /**
    Two successive edits, first to `a` then to `b`: each credits the list it
    replaces, so the stock ends up raised by the original lines and by the
    lines of `a` alike. Nothing is taken away for `a` or `b`.
   */
  lemma TwoEditsCreditBothReplacedLists(st: Store, caller: Caller, id: Id, a: Input<seq<ItemInput>>, b: Input<seq<ItemInput>>, p: Id)
    requires UpdateShipment(st, caller, id, a).out.Ok?
    requires p in st.products
    ensures EditAdmitted(UpdateShipment(st, caller, id, a).store, caller, id)
    ensures
      var mid := UpdateShipment(st, caller, id, a).store;
      var end := UpdateShipment(mid, caller, id, b).store;
      end.products[p].currentStock
        == st.products[p].currentStock + QuantityFor(st.shipments[id].items, p) + RequestedFor(a.value, p)
  {
    var first := UpdateShipment(st, caller, id, a);
    var prev := st.shipments[id];
    var rate := RateOf(st.users[prev.sender]);
    var credited := CreditStock(st.products, prev.items);
    assert BuildLines(credited, None, a.value, rate).Ok?;
    assert first.out.value.items == BuildLines(credited, None, a.value, rate).value;
    BuiltLinesQuantityFor(credited, None, a.value, rate, p);
  }

  /**
    The cost of the non-atomic edit: an edit that passes the guards and then
    fails keeps its credit, so retrying it credits the old lines a second
    time, whatever the retry sends.
   */
  lemma RetriedEditCreditsOldLinesTwice(st: Store, caller: Caller, id: Id, a: Input<seq<ItemInput>>, b: Input<seq<ItemInput>>, p: Id)
    requires EditAdmitted(st, caller, id) && UpdateShipment(st, caller, id, a).out.Err?
    requires p in st.products
    ensures
      var mid := UpdateShipment(st, caller, id, a).store;
      var end := UpdateShipment(mid, caller, id, b).store;
      && mid.shipments == st.shipments
      && EditAdmitted(mid, caller, id)
      && end.products[p].currentStock == st.products[p].currentStock + 2 * QuantityFor(st.shipments[id].items, p)
  {
  }

  /** Editing a shipment that has left `pending` fails, whoever asks and whatever they send. */
  lemma ProcessedShipmentsAreFrozen(st: Store, caller: Caller, id: Id, items: Input<seq<ItemInput>>)
    requires id in st.shipments && st.shipments[id].status in {Received, Rejected}
    ensures UpdateShipment(st, caller, id, items) == Reply(st, Err(NotPending))
  {
  }

  /** Setting `status` back to "pending" makes a received or rejected shipment editable again. */
  lemma ReopenedShipmentIsEditable(st: Store, caller: Caller, id: Id, paymentStatus: Input<string>, now: Time)
    requires UpdateShipmentStatus(st, id, Given("pending"), paymentStatus, now).out.Ok?
    requires MayEdit(caller, st.shipments[id])
    ensures EditAdmitted(UpdateShipmentStatus(st, id, Given("pending"), paymentStatus, now).store, caller, id)
  {
  }

  /** The two fields are independent: setting them one after the other equals setting both at once. */
  lemma StatusFieldsIndependent(st: Store, id: Id, status: Input<string>, paymentStatus: Input<string>, now: Time)
    requires id in st.shipments && StatusAccepted(status) && PaymentAccepted(paymentStatus)
    ensures
      var first := UpdateShipmentStatus(st, id, status, Undefined, now);
      var both := UpdateShipmentStatus(st, id, status, paymentStatus, now);
      && first.out.Ok?
      && UpdateShipmentStatus(first.store, id, Undefined, paymentStatus, now) == both
  {
  }

  /**
    One request is saved, and its enums validated, as a whole: with a bad
    payment value, "received" alone is stored and stamped, while the same
    two values in one request store nothing.
   */
  lemma SplitTransitionDiffersOnBadPayment(st: Store, id: Id, paymentStatus: string, now: Time)
    requires id in st.shipments && st.shipments[id].status != Received
    requires paymentStatus != "" && !PaymentAccepted(Given(paymentStatus))
    ensures
      var both := UpdateShipmentStatus(st, id, Given("received"), Given(paymentStatus), now);
      var first := UpdateShipmentStatus(st, id, Given("received"), Undefined, now);
      var second := UpdateShipmentStatus(first.store, id, Undefined, Given(paymentStatus), now);
      && both == Reply(st, Err(ServerError))
      && first.out.Ok? && first.out.value.receivedAt == Some(now)
      && second == Reply(first.store, Err(ServerError))
      && second.store != both.store
  {
  }

  /**
    A repeated transition changes nothing but the timestamps: the second
    application with a later clock yields the same shipment up to
    `receivedAt` / `paidAt`, and stamps those again whenever the request
    names "received" / "paid", even if the first stamp is still in place.
   */
  lemma TransitionRepeatRestamps(st: Store, id: Id, status: Input<string>, paymentStatus: Input<string>, t1: Time, t2: Time)
    requires UpdateShipmentStatus(st, id, status, paymentStatus, t1).out.Ok?
    ensures
      var once := UpdateShipmentStatus(st, id, status, paymentStatus, t1);
      var twice := UpdateShipmentStatus(once.store, id, status, paymentStatus, t2);
      && twice.out.Ok?
      && twice.out.value.(receivedAt := None, paidAt := None) == once.out.value.(receivedAt := None, paidAt := None)
      && (Truthy(status) && status.value == "received" ==> twice.out.value.receivedAt == Some(t2))
      && (Truthy(paymentStatus) && paymentStatus.value == "paid" ==> twice.out.value.paidAt == Some(t2))
      && (!(Truthy(status) && status.value == "received") ==> twice.out.value.receivedAt == once.out.value.receivedAt)
      && (!(Truthy(paymentStatus) && paymentStatus.value == "paid") ==> twice.out.value.paidAt == once.out.value.paidAt)
  {
  }

  /** A created shipment is listed for its sender and readable by them, with its totals consistent. */
  lemma CreatedShipmentIsVisibleToSender(st: Store, caller: Caller, items: Input<seq<ItemInput>>, now: Time)
    requires CreateShipment(st, caller, items, now).out.Ok?
    ensures
      var r := CreateShipment(st, caller, items, now);
      var (id, s) := r.out.value;
      && id in GetMyShipments(r.store, caller)
      && GetShipmentById(r.store, caller, id) == Ok(s)
      && TotalsConsistent(s)
  {
    var r := CreateShipment(st, caller, items, now);
    var rate := RateOf(st.users[caller.id]);
    BuiltLinesUniform(st.products, Some(caller.id), items.value, rate);
    assert r.out.value.1.items == BuildLines(st.products, Some(caller.id), items.value, rate).value;
  }

  /** A successful edit keeps the shipment's totals consistent with its new lines. */
  lemma EditedShipmentTotalsConsistent(st: Store, caller: Caller, id: Id, items: Input<seq<ItemInput>>)
    requires UpdateShipment(st, caller, id, items).out.Ok?
    ensures TotalsConsistent(UpdateShipment(st, caller, id, items).out.value)
  {
    var prev := st.shipments[id];
    var rate := RateOf(st.users[prev.sender]);
    var credited := CreditStock(st.products, prev.items);
    BuiltLinesUniform(credited, None, items.value, rate);
    assert UpdateShipment(st, caller, id, items).out.value.items == BuildLines(credited, None, items.value, rate).value;
  }
}

=== FILE: shipments.dfy ===
/**
  The shipment lifecycle: create, edit while pending, the admin's
  status/payment transition, and the two reads (by id, and the caller's
  own shipments).

  Stock is never deducted: the deduction steps of create and edit are
  disabled in the handlers, while the edit's revert phase still adds the
  replaced quantities back. The model keeps that behaviour.
 */
module Shipments {
  import opened Common
  import opened Model

  /** One entry of the request's `items` array. */
  datatype ItemInput = ItemInput(productId: Id, quantity: int)

  /** Sum of the requested quantities. */
  function RequestedQuantity(items: seq<ItemInput>): int {
    if items == [] then 0 else items[0].quantity + RequestedQuantity(items[1..])
  }

  /** Sum of the quantities of the lines that reference product `p`. */
  function QuantityFor(lines: seq<LineItem>, p: Id): int {
    if lines == [] then 0
    else (if lines[0].product == p then lines[0].quantity else 0) + QuantityFor(lines[1..], p)
  }

  /** The rate a user ships at: `user.priceAllotted || 0`. */
  function RateOf(u: User): int {
    match u.priceAllotted
    case Some(p) => p
    case None => 0
  }

  /**
    The check one requested item must pass: its product exists and, when
    `owner` is given, belongs to that user. Missing is reported before
    foreign.
   */
  function ItemCheck(products: map<Id, Product>, owner: Option<Id>, item: ItemInput): Option<Error> {
    if item.productId !in products then Some(NotFound)
    else if owner.Some? && products[item.productId].owner != owner.value then Some(NotAuthorized)
    else None
  }

  /**
    The item loop shared by create and edit: checks every requested item in
    order and snapshots each into a line at one rate. The first item that
    fails its check decides the error.
   */
  function BuildLines(products: map<Id, Product>, owner: Option<Id>, items: seq<ItemInput>, rate: int): (r: Result<seq<LineItem>>)
    ensures r.Ok? <==> forall i :: 0 <= i < |items| ==> ItemCheck(products, owner, items[i]).None?
    ensures r.Ok? ==> |r.value| == |items|
    ensures r.Ok? ==> forall i :: 0 <= i < |items| ==>
      && items[i].productId in products
      && r.value[i] == LineItem(items[i].productId, products[items[i].productId].name, items[i].quantity, rate)
    ensures r.Ok? ==> LineQuantity(r.value) == RequestedQuantity(items)
    ensures r.Err? ==>
      exists k :: 0 <= k < |items|
        && ItemCheck(products, owner, items[k]) == Some(r.error)
        && (forall j :: 0 <= j < k ==> ItemCheck(products, owner, items[j]).None?)
  {
    if items == [] then Ok([])
    else
      match ItemCheck(products, owner, items[0])
      case Some(e) => Err(e)
      case None =>
        var head := LineItem(items[0].productId, products[items[0].productId].name, items[0].quantity, rate);
        match BuildLines(products, owner, items[1..], rate)
        case Err(e) =>
          assert forall k :: 0 <= k < |items| - 1 ==> items[1..][k] == items[k + 1];
          Err(e)
        case Ok(rest) =>
          assert forall i :: 0 <= i < |items| - 1 ==> items[1..][i] == items[i + 1];
          assert ([head] + rest)[1..] == rest;
          Ok([head] + rest)
  }

  /** Built lines carry one uniform rate: the rate they were built at. */
  lemma BuiltLinesUniform(products: map<Id, Product>, owner: Option<Id>, items: seq<ItemInput>, rate: int)
    requires BuildLines(products, owner, items, rate).Ok?
    ensures UniformRate(BuildLines(products, owner, items, rate).value)
    ensures items != [] ==> ShipmentRate(BuildLines(products, owner, items, rate).value) == rate
  {
  }

  /** The request loop's running total, `totalQuantity += Number(item.quantity)`. */
  method AccumulateQuantity(items: seq<ItemInput>) returns (total: int)
    ensures total == RequestedQuantity(items)
  {
    total := 0;
    var i := 0;
    while i < |items|
      invariant 0 <= i <= |items|
      invariant total == RequestedQuantity(items[..i])
    {
      RequestedQuantityAppend(items[..i], [items[i]]);
      assert items[..i] + [items[i]] == items[..i + 1];
      total := total + items[i].quantity;
      i := i + 1;
    }
    assert items[..i] == items;
  }

  lemma {:induction false} RequestedQuantityAppend(a: seq<ItemInput>, b: seq<ItemInput>)
    ensures RequestedQuantity(a + b) == RequestedQuantity(a) + RequestedQuantity(b)
  {
    if a == [] {
      assert a + b == b;
    } else {
      assert (a + b)[1..] == a[1..] + b;
      RequestedQuantityAppend(a[1..], b);
    }
  }

  lemma {:induction false} QuantityForAppend(a: seq<LineItem>, b: seq<LineItem>, p: Id)
    ensures QuantityFor(a + b, p) == QuantityFor(a, p) + QuantityFor(b, p)
  {
    if a == [] {
      assert a + b == b;
    } else {
      assert (a + b)[1..] == a[1..] + b;
      QuantityForAppend(a[1..], b, p);
    }
  }

  // --------------------------------------------------------------- create

  /**
    `createShipment`: validates the request, snapshots the caller's rate and
    each product's name into the lines, and stores a pending, unpaid
    shipment. Product stock is left alone.
   */
  function CreateShipment(st: Store, caller: Caller, items: Input<seq<ItemInput>>, now: Time): (r: Reply<(Id, Shipment)>)
    // a missing or empty `items` is refused first
    ensures !(items.Given? && |items.value| > 0) ==> r == Reply(st, Err(NoItems))
    // a caller whose user record is gone fails on `user.priceAllotted`
    ensures items.Given? && |items.value| > 0 && caller.id !in st.users ==> r == Reply(st, Err(ServerError))
    ensures r.out.Err? ==> r.store == st
    ensures items.Given? && |items.value| > 0 && caller.id in st.users ==>
      (r.out.Ok? <==> forall i :: 0 <= i < |items.value| ==>
        items.value[i].productId in st.products && st.products[items.value[i].productId].owner == caller.id)
    // the first item that fails decides: a missing product, else a product of someone else
    ensures r.out.Err? && items.Given? && |items.value| > 0 && caller.id in st.users ==>
      exists k :: 0 <= k < |items.value|
        && (forall j :: 0 <= j < k ==> ItemCheck(st.products, Some(caller.id), items.value[j]).None?)
        && r.out.error == (if items.value[k].productId !in st.products then NotFound else NotAuthorized)
        && (items.value[k].productId in st.products ==> st.products[items.value[k].productId].owner != caller.id)
    ensures r.out.Ok? ==> items.Given? && caller.id in st.users
    ensures r.out.Ok? ==>
      var id := r.out.value.0;
      var s := r.out.value.1;
      var rate := RateOf(st.users[caller.id]);
      && id == st.nextId
      && r.store == st.(shipments := st.shipments[id := s], nextId := st.nextId + 1)
      && s.sender == caller.id && s.status == Pending && s.paymentStatus == Unpaid
      && s.shippedAt == now && s.receivedAt.None? && s.paidAt.None?
      && |s.items| == |items.value|
      && (forall i :: 0 <= i < |s.items| ==>
           && items.value[i].productId in st.products
           && s.items[i] == LineItem(items.value[i].productId, st.products[items.value[i].productId].name,
                                     items.value[i].quantity, rate))
      && s.totalQuantity == RequestedQuantity(items.value)
      && s.totalAmount == s.totalQuantity * rate
  {
    if !(items.Given? && |items.value| > 0) then Reply(st, Err(NoItems))
    else if caller.id !in st.users then Reply(st, Err(ServerError))
    else
      var rate := RateOf(st.users[caller.id]);
      match BuildLines(st.products, Some(caller.id), items.value, rate)
      case Err(e) => Reply(st, Err(e))
      case Ok(lines) =>
        var total := RequestedQuantity(items.value);
        var s := NewShipmentDoc(caller.id, lines, total, total * rate, now);
        Reply(st.(shipments := st.shipments[st.nextId := s], nextId := st.nextId + 1), Ok((st.nextId, s)))
  }

  // ----------------------------------------------------------------- edit

  /** The edit's authorization rule: the sender or an admin. */
  predicate MayEdit(caller: Caller, s: Shipment) {
    s.sender == caller.id || caller.role == Admin
  }

  /** The shipment exists, is still pending, and the caller may edit it. */
  predicate EditAdmitted(st: Store, caller: Caller, id: Id) {
    id in st.shipments && st.shipments[id].status == Pending && MayEdit(caller, st.shipments[id])
  }

  /**
    The revert loop: adds each line's quantity back onto its product's
    stock, one line after another, skipping products that no longer exist.
   */
  function CreditStock(products: map<Id, Product>, lines: seq<LineItem>): (r: map<Id, Product>)
    ensures r.Keys == products.Keys
    ensures forall p :: p in r ==>
      r[p] == products[p].(currentStock := products[p].currentStock + QuantityFor(lines, p))
    decreases |lines|
  {
    if lines == [] then products
    else
      var before := CreditStock(products, lines[..|lines| - 1]);
      var last := lines[|lines| - 1];
      assert lines == lines[..|lines| - 1] + [last];
      forall p
        ensures QuantityFor(lines, p) == QuantityFor(lines[..|lines| - 1], p) + (if last.product == p then last.quantity else 0)
      {
        QuantityForAppend(lines[..|lines| - 1], [last], p);
        assert [last][1..] == [];
      }
      if last.product in before then
        before[last.product := before[last.product].(currentStock := before[last.product].currentStock + last.quantity)]
      else before
  }

  /**
    `updateShipment`: refuses a missing, non-pending or foreign shipment;
    credits the prev lines back to stock; then rebuilds the lines and totals
    at the sender's current rate. A failure after the credit keeps the
    credit and leaves the shipment as it was.
   */
  function UpdateShipment(st: Store, caller: Caller, id: Id, items: Input<seq<ItemInput>>): (r: Reply<Shipment>)
    ensures id !in st.shipments ==> r == Reply(st, Err(NotFound))
    // the status is checked before the caller
    ensures id in st.shipments && st.shipments[id].status != Pending ==> r == Reply(st, Err(NotPending))
    ensures id in st.shipments && st.shipments[id].status == Pending && !MayEdit(caller, st.shipments[id]) ==>
      r == Reply(st, Err(NotAuthorized))
    // past the guards the credit is applied, whatever happens next
    ensures EditAdmitted(st, caller, id) ==>
      && r.store.products == CreditStock(st.products, st.shipments[id].items)
      && r.store.users == st.users && r.store.nextId == st.nextId
    ensures r.out.Err? ==> r.store.shipments == st.shipments
    // a deleted sender, or no `items` array, throws after the credit
    ensures EditAdmitted(st, caller, id) && (st.shipments[id].sender !in st.users || !items.Given?) ==>
      r.out == Err(ServerError)
    // new products must exist but are not checked for ownership
    ensures EditAdmitted(st, caller, id) && st.shipments[id].sender in st.users && items.Given? ==>
      && (r.out.Ok? <==> forall i :: 0 <= i < |items.value| ==> items.value[i].productId in st.products)
      && (r.out.Err? ==> r.out.error == NotFound)
    ensures r.out.Ok? ==> EditAdmitted(st, caller, id) && st.shipments[id].sender in st.users && items.Given?
    ensures r.out.Ok? ==>
      var prev := st.shipments[id];
      var s := r.out.value;
      var rate := RateOf(st.users[prev.sender]);
      && r.store.shipments == st.shipments[id := s]
      && s.sender == prev.sender && s.status == prev.status && s.paymentStatus == prev.paymentStatus
      && s.shippedAt == prev.shippedAt && s.receivedAt == prev.receivedAt && s.paidAt == prev.paidAt
      && |s.items| == |items.value|
      && (forall i :: 0 <= i < |s.items| ==>
           && items.value[i].productId in st.products
           && s.items[i] == LineItem(items.value[i].productId, st.products[items.value[i].productId].name,
                                     items.value[i].quantity, rate))
      && s.totalQuantity == RequestedQuantity(items.value)
      && s.totalAmount == s.totalQuantity * rate
  {
    if id !in st.shipments then Reply(st, Err(NotFound))
    else
      var prev := st.shipments[id];
      if prev.status != Pending then Reply(st, Err(NotPending))
      else if !MayEdit(caller, prev) then Reply(st, Err(NotAuthorized))
      else
        var credited := st.(products := CreditStock(st.products, prev.items));
        if prev.sender !in st.users then Reply(credited, Err(ServerError))
        else if !items.Given? then Reply(credited, Err(ServerError))
        else
          var rate := RateOf(st.users[prev.sender]);
          match BuildLines(credited.products, None, items.value, rate)
          case Err(e) => Reply(credited, Err(e))
          case Ok(lines) =>
            var total := RequestedQuantity(items.value);
            var s := prev.(items := lines, totalQuantity := total, totalAmount := total * rate);
            Reply(credited.(shipments := st.shipments[id := s]), Ok(s))
  }

  // ----------------------------------------------------------- transition

  /** A `status` field the schema accepts: absent or falsy, or one of the enum names. */
  predicate StatusAccepted(status: Input<string>) {
    Truthy(status) ==> ParseStatus(status.value).Some?
  }

  /** A `paymentStatus` field the schema accepts: absent or falsy, or one of the enum names. */
  predicate PaymentAccepted(paymentStatus: Input<string>) {
    Truthy(paymentStatus) ==> ParsePayment(paymentStatus.value).Some?
  }

  /**
    `updateShipmentStatus`: sets `status` and `paymentStatus`, each only when
    supplied, with no restriction on which value follows which, and stamps
    `receivedAt` / `paidAt`. A value outside its enum fails the save, and
    then nothing is stored.
   */
  function UpdateShipmentStatus(st: Store, id: Id, status: Input<string>, paymentStatus: Input<string>, now: Time): (r: Reply<Shipment>)
    ensures id !in st.shipments ==> r == Reply(st, Err(NotFound))
    ensures r.out.Err? ==> r.store == st
    ensures id in st.shipments ==>
      (r.out.Ok? <==> StatusAccepted(status) && PaymentAccepted(paymentStatus))
    ensures id in st.shipments && r.out.Err? ==> r.out.error == ServerError
    ensures r.out.Ok? ==>
      var prev := st.shipments[id];
      var s := r.out.value;
      && r.store == st.(shipments := st.shipments[id := s])
      && s.sender == prev.sender && s.items == prev.items && s.shippedAt == prev.shippedAt
      && s.totalQuantity == prev.totalQuantity && s.totalAmount == prev.totalAmount
      && s.status == (if Truthy(status) then ParseStatus(status.value).value else prev.status)
      && s.paymentStatus == (if Truthy(paymentStatus) then ParsePayment(paymentStatus.value).value else prev.paymentStatus)
      && s.receivedAt == (if Truthy(status) && s.status == Received then Some(now) else prev.receivedAt)
      && s.paidAt == (if Truthy(paymentStatus) && s.paymentStatus == Paid then Some(now) else prev.paidAt)
  {
    if id !in st.shipments then Reply(st, Err(NotFound))
    else if !StatusAccepted(status) || !PaymentAccepted(paymentStatus) then Reply(st, Err(ServerError))
    else
      var prev := st.shipments[id];
      var s1 :=
        if Truthy(status) then
          prev.(status := ParseStatus(status.value).value,
               receivedAt := if status.value == "received" then Some(now) else prev.receivedAt)
        else prev;
      var s2 :=
        if Truthy(paymentStatus) then
          s1.(paymentStatus := ParsePayment(paymentStatus.value).value,
              paidAt := if paymentStatus.value == "paid" then Some(now) else s1.paidAt)
        else s1;
      Reply(st.(shipments := st.shipments[id := s2]), Ok(s2))
  }

  // ---------------------------------------------------------------- reads

  /**
    `getShipmentById`: only the sender or an admin may read a shipment. For
    a non-admin the check dereferences the populated sender, which throws
    when the sender's user record is gone.
   */
  function GetShipmentById(st: Store, caller: Caller, id: Id): (r: Result<Shipment>)
    ensures r == Err(NotFound) <==> id !in st.shipments
    ensures r.Ok? ==> id in st.shipments && r.value == st.shipments[id]
    ensures r.Ok? ==> caller.role == Admin || st.shipments[id].sender == caller.id
    ensures id in st.shipments && caller.role == Admin ==> r.Ok?
    ensures id in st.shipments && caller.role != Admin ==>
      (r.Ok? <==> st.shipments[id].sender == caller.id && caller.id in st.users)
    ensures id in st.shipments && caller.role != Admin && st.shipments[id].sender !in st.users ==> r == Err(ServerError)
    ensures id in st.shipments && caller.role != Admin && st.shipments[id].sender in st.users && st.shipments[id].sender != caller.id ==>
      r == Err(Forbidden)
  {
    if id !in st.shipments then Err(NotFound)
    else
      var s := st.shipments[id];
      if caller.role != Admin then
        if s.sender !in st.users then Err(ServerError)
        else if s.sender != caller.id then Err(Forbidden)
        else Ok(s)
      else Ok(s)
  }

  /** `getMyShipments`: exactly the shipments the caller sent. */
  function GetMyShipments(st: Store, caller: Caller): (r: map<Id, Shipment>)
    ensures forall k :: k in r <==> k in st.shipments && st.shipments[k].sender == caller.id
    ensures forall k :: k in r ==> r[k] == st.shipments[k]
  {
    map k | k in st.shipments && st.shipments[k].sender == caller.id :: st.shipments[k]
  }

  /** `getAllShipments`: every shipment (the route admits admins only). */
  function GetAllShipments(st: Store): map<Id, Shipment> {
    st.shipments
  }
}

=== FILE: users.dfy ===
/**
  User management: the admin creates, edits and deletes production users;
  any user edits their own profile. Emails are unique; a password is
  hashed on save only when it was assigned.
 */
module Users {
  import opened Common
  import opened Model

  /** The body of a create request. `role` is read from nowhere: it is listed to show it is ignored. */
  datatype NewUser = NewUser(
    name: Input<string>,
    email: Input<string>,
    password: Input<string>,
    mobile: Input<string>,
    priceAllotted: Input<int>,
    role: Input<string>)

  /** The body of the admin's update request. */
  datatype UserChanges = UserChanges(
    name: Input<string>,
    email: Input<string>,
    mobile: Input<string>,
    locality: Input<string>,
    priceAllotted: Input<int>,
    isActive: Input<bool>,
    password: Input<string>)

  /** The body of a profile update; any other field is ignored. */
  datatype ProfileChanges = ProfileChanges(
    name: Input<string>,
    email: Input<string>,
    mobile: Input<string>,
    password: Input<string>)

  /** A user as listed to the admin: every field but the password. */
  datatype UserView = UserView(
    name: string,
    email: string,
    role: Role,
    mobile: string,
    locality: Option<string>,
    priceAllotted: Option<int>,
    isActive: Option<bool>,
    createdAt: Time)

  function View(u: User): UserView {
    UserView(u.name, u.email, u.role, u.mobile, u.locality, u.priceAllotted, u.isActive, u.createdAt)
  }

  /**
    `User.findOne({ email })` finds someone. A missing or null email matches
    no stored user, since every stored email is a non-empty string.
   */
  predicate EmailInUse(users: map<Id, User>, email: Input<string>) {
    email.Given? && exists k :: k in users && users[k].email == email.value
  }

  /** `getUsers`: the production users, without their passwords. */
  function GetUsers(st: Store): (r: map<Id, UserView>)
    ensures forall k :: k in r <==> k in st.users && st.users[k].role == Production
    ensures forall k :: k in r ==> r[k] == View(st.users[k])
  {
    map k | k in st.users && st.users[k].role == Production :: View(st.users[k])
  }

  /**
    `createUser`: refuses an email already in use; otherwise stores a
    production user, whatever role the body names, with the schema's
    defaults for what the body leaves out. A missing required field fails
    the save.
   */
  function CreateUser(st: Store, body: NewUser, now: Time): (r: Reply<(Id, User)>)
    ensures EmailInUse(st.users, body.email) ==> r == Reply(st, Err(UserExists))
    ensures r.out.Err? ==> r.store == st
    ensures !EmailInUse(st.users, body.email) ==>
      (r.out.Ok? <==> Truthy(body.name) && Truthy(body.email)
                      && Truthy(body.password) && Truthy(body.mobile))
    ensures !EmailInUse(st.users, body.email) && r.out.Err? ==> r.out.error == ServerError
    ensures r.out.Ok? ==>
      var id := r.out.value.0;
      var u := r.out.value.1;
      && id == st.nextId
      && r.store == st.(users := st.users[id := u], nextId := st.nextId + 1)
      && u.role == Production
      && u.name == body.name.value && u.email == body.email.value && u.mobile == body.mobile.value
      && u.password == Hashed(body.password.value)
      && u.locality.None?
      && u.priceAllotted == (match body.priceAllotted
                             case Undefined => Some(0)
                             case Null => None
                             case Given(p) => Some(p))
      && u.isActive == Some(true)
      && u.createdAt == now
      && !EmailTaken(st.users, u.email, None)
  {
    if EmailInUse(st.users, body.email) then Reply(st, Err(UserExists))
    else if !(Truthy(body.name) && Truthy(body.email) && Truthy(body.password) && Truthy(body.mobile)) then
      Reply(st, Err(ServerError))
    else
      // a new document's password counts as modified, so the save hook hashes it
      var u := User(body.name.value, body.email.value, Hashed(body.password.value), Production,
                    body.mobile.value, None, UnlessUndefined(body.priceAllotted, Some(DefaultPriceAllotted)),
                    Some(DefaultIsActive), now);
      Reply(st.(users := st.users[st.nextId := u], nextId := st.nextId + 1), Ok((st.nextId, u)))
  }

  /** `deleteUser`: removes exactly that user; their products and shipments stay. */
  function DeleteUser(st: Store, id: Id): (r: Reply<()>)
    ensures id !in st.users <==> r == Reply(st, Err(NotFound))
    ensures r.out.Ok? ==> r.store == st.(users := st.users - {id})
    ensures id in st.users ==> r.out.Ok?
  {
    if id !in st.users then Reply(st, Err(NotFound))
    else Reply(st.(users := st.users - {id}), Ok(()))
  }

  /** The password an update assigns under the admin's rule: a value that is not blank after trimming. */
  function AdminAssignedPassword(p: Input<string>): (r: Option<string>)
    ensures r.Some? <==> Truthy(p) && !Blank(p.value)
    ensures r.Some? ==> r.value == p.value
  {
    if Truthy(p) then
      TrimEmptyIffBlank(p.value);
      if Trim(p.value) != "" then Some(p.value) else None
    else None
  }

  /** The password a profile update assigns: any truthy value, blank or not. */
  function ProfileAssignedPassword(p: Input<string>): Option<string> {
    if Truthy(p) then Some(p.value) else None
  }

  /**
    Saving an edited user: the unique index refuses an email another user
    holds, and the required fields must be present. Neither handler catches
    the failure.
   */
  function SaveUser(st: Store, id: Id, u: User): (r: Reply<User>)
    ensures r.out.Ok? <==> !EmailTaken(st.users, u.email, Some(id)) && UserFieldsPresent(u)
    ensures r.out.Err? ==> r == Reply(st, Err(Unhandled))
    ensures r.out.Ok? ==> r == Reply(st.(users := st.users[id := u]), Ok(u))
  {
    if EmailTaken(st.users, u.email, Some(id)) || !UserFieldsPresent(u) then Reply(st, Err(Unhandled))
    else Reply(st.(users := st.users[id := u]), Ok(u))
  }

  /**
    `updateUser`: the admin's edit. Text fields keep their value when the
    new one is falsy; `priceAllotted` and `isActive` take any supplied value,
    0, false and null included; the password changes only when the new one
    is not blank after trimming.
   */
  function UpdateUser(st: Store, id: Id, ch: UserChanges): (r: Reply<User>)
    ensures id !in st.users ==> r == Reply(st, Err(NotFound))
    ensures r.out.Err? ==> r.store == st
    ensures id in st.users && r.out.Err? ==> r.out.error == Unhandled
    // a stored user fails the save only when the new email belongs to someone else
    ensures id in st.users && UserFieldsPresent(st.users[id]) ==>
      (r.out.Ok? <==> !EmailTaken(st.users, OrKeep(ch.email, st.users[id].email), Some(id)))
    ensures r.out.Ok? ==>
      var prev := st.users[id];
      var u := r.out.value;
      && r.store == st.(users := st.users[id := u])
      && u.name == OrKeep(ch.name, prev.name)
      && u.email == OrKeep(ch.email, prev.email)
      && u.mobile == OrKeep(ch.mobile, prev.mobile)
      && u.locality == (if Truthy(ch.locality) then Some(ch.locality.value) else prev.locality)
      && u.priceAllotted == (if ch.priceAllotted.Undefined? then prev.priceAllotted
                             else if ch.priceAllotted.Null? then None else Some(ch.priceAllotted.value))
      && u.isActive == (if ch.isActive.Undefined? then prev.isActive
                        else if ch.isActive.Null? then None else Some(ch.isActive.value))
      && u.password == (if Truthy(ch.password) && !Blank(ch.password.value) then Hashed(ch.password.value) else prev.password)
      && u.role == prev.role && u.createdAt == prev.createdAt
      && !EmailTaken(st.users, u.email, Some(id))
  {
    if id !in st.users then Reply(st, Err(NotFound))
    else
      var prev := st.users[id];
      var u := prev.(
        name := OrKeep(ch.name, prev.name),
        email := OrKeep(ch.email, prev.email),
        mobile := OrKeep(ch.mobile, prev.mobile),
        locality := if Truthy(ch.locality) then Some(ch.locality.value) else prev.locality,
        priceAllotted := UnlessUndefined(ch.priceAllotted, prev.priceAllotted),
        isActive := UnlessUndefined(ch.isActive, prev.isActive),
        password := HashOnSave(prev.password, AdminAssignedPassword(ch.password)));
      SaveUser(st, id, u)
  }

  /**
    `updateUserProfile`: the caller edits their own name, email, mobile and
    password; role, rate, activity and locality are out of reach.
   */
  function UpdateUserProfile(st: Store, caller: Caller, ch: ProfileChanges): (r: Reply<User>)
    ensures caller.id !in st.users ==> r == Reply(st, Err(NotFound))
    ensures r.out.Err? ==> r.store == st
    ensures caller.id in st.users && r.out.Err? ==> r.out.error == Unhandled
    ensures caller.id in st.users && UserFieldsPresent(st.users[caller.id]) ==>
      (r.out.Ok? <==> !EmailTaken(st.users, OrKeep(ch.email, st.users[caller.id].email), Some(caller.id)))
    ensures r.out.Ok? ==> !EmailTaken(st.users, r.out.value.email, Some(caller.id))
    ensures r.out.Ok? ==>
      var prev := st.users[caller.id];
      var u := r.out.value;
      && r.store == st.(users := st.users[caller.id := u])
      && u.name == OrKeep(ch.name, prev.name)
      && u.email == OrKeep(ch.email, prev.email)
      && u.mobile == OrKeep(ch.mobile, prev.mobile)
      && u.password == (if Truthy(ch.password) then Hashed(ch.password.value) else prev.password)
      && u.role == prev.role && u.priceAllotted == prev.priceAllotted && u.isActive == prev.isActive
      && u.locality == prev.locality && u.createdAt == prev.createdAt
  {
    if caller.id !in st.users then Reply(st, Err(NotFound))
    else
      var prev := st.users[caller.id];
      var u := prev.(
        name := OrKeep(ch.name, prev.name),
        email := OrKeep(ch.email, prev.email),
        mobile := OrKeep(ch.mobile, prev.mobile),
        password := HashOnSave(prev.password, ProfileAssignedPassword(ch.password)));
      SaveUser(st, caller.id, u)
  }

  // ------------------------------------------------------------ properties

  /** A blank but non-empty password is taken by the profile update and ignored by the admin's update. */
  lemma BlankPasswordRules(st: Store, caller: Caller, p: string)
    requires p != "" && Blank(p)
    requires caller.id in st.users
    requires UserFieldsPresent(st.users[caller.id])
    requires !EmailTaken(st.users, st.users[caller.id].email, Some(caller.id))
    ensures UpdateUserProfile(st, caller, ProfileChanges(Undefined, Undefined, Undefined, Given(p))).out == Ok(st.users[caller.id].(password := Hashed(p)))
    ensures UpdateUser(st, caller.id, UserChanges(Undefined, Undefined, Undefined, Undefined, Undefined, Undefined, Given(p))).out == Ok(st.users[caller.id])
  {
  }

  /** Applying the same admin update twice leaves the same store as applying it once. */
  lemma UpdateUserIdempotent(st: Store, id: Id, ch: UserChanges)
    requires UpdateUser(st, id, ch).out.Ok?
    ensures
      var once := UpdateUser(st, id, ch);
      UpdateUser(once.store, id, ch) == once
  {
  }

  /** A created user is a production user the admin's listing shows, without a password. */
  lemma CreatedUserIsListed(st: Store, body: NewUser, now: Time)
    requires CreateUser(st, body, now).out.Ok?
    ensures
      var c := CreateUser(st, body, now);
      c.out.value.0 in GetUsers(c.store) && GetUsers(c.store)[c.out.value.0] == View(c.out.value.1)
  {
  }

  /** An email already in use can never be registered again, whatever else the body says. */
  lemma DuplicateEmailRefused(st: Store, body: NewUser, now: Time, id: Id)
    requires id in st.users && body.email == Given(st.users[id].email)
    ensures CreateUser(st, body, now) == Reply(st, Err(UserExists))
  {
  }

  /**
    The unique index and the required fields together: a save that goes
    through keeps emails unique across the collection and leaves the saved
    record with its required fields.
   */
  lemma SaveKeepsEmailsUnique(st: Store, id: Id, u: User)
    requires EmailsUnique(st.users)
    requires SaveUser(st, id, u).out.Ok?
    ensures EmailsUnique(SaveUser(st, id, u).store.users)
    ensures UserFieldsPresent(SaveUser(st, id, u).store.users[id])
  {
  }

  /**
    The pre-save hook seen from the admin's update: only the edited user's
    stored password can change, and it changes to the hash of the assigned
    one exactly when a non-blank password was supplied.
   */
  lemma AdminUpdateRehashesOnlyAssignedPassword(st: Store, id: Id, ch: UserChanges)
    requires UpdateUser(st, id, ch).out.Ok?
    ensures
      var users := UpdateUser(st, id, ch).store.users;
      && (forall k :: k in st.users ==> k in users)
      && (forall k :: k in st.users && users[k].password != st.users[k].password ==> k == id)
      && (Truthy(ch.password) && !Blank(ch.password.value) ==> users[id].password == Hashed(ch.password.value))
      && (!(Truthy(ch.password) && !Blank(ch.password.value)) ==> users[id].password == st.users[id].password)
  {
  }

  /**
    The pre-save hook seen from the profile update: only the caller's stored
    password can change, to the hash of any truthy password they send, and
    a request without one keeps the stored hash.
   */
  lemma ProfileUpdateRehashesOnlyAssignedPassword(st: Store, caller: Caller, ch: ProfileChanges)
    requires UpdateUserProfile(st, caller, ch).out.Ok?
    ensures
      var users := UpdateUserProfile(st, caller, ch).store.users;
      && (forall k :: k in st.users ==> k in users)
      && (forall k :: k in st.users && users[k].password != st.users[k].password ==> k == caller.id)
      && (Truthy(ch.password) ==> users[caller.id].password == Hashed(ch.password.value))
      && (!Truthy(ch.password) ==> users[caller.id].password == st.users[caller.id].password)
  {
  }
}
